=== FILE: README.md ===
# Blog admin and story-editor core, in Dafny

This project models the server core of a small blog site with an admin area
and a story-scene editor:

- the admin controller (`routes/admin.js`): login, logout, the dashboard
  statistics, the posts list, and create / edit-form / update / delete of posts;
- the story-scene JSON API (`routes/story-api.js`): the distinct file list,
  the scenes of one file, one scene's details, and the scene update;
- the two session gates (`middleware/auth.js`): `requireAuth` and
  `redirectIfAuthenticated`;
- the connection-failure classifier `isConnectionError` (`config/database.js`);
- the pure parts of the browser story editor (`public/js/story-editor.js`):
  filling the form from a fetched scene, the no-scene guard on save, and the
  split / trim / drop-blank normalisation of the text areas.

`server.js` (lines 44-48) mounts only the public and admin routers, and
nothing mounts `routes/story-api.js`, so the editor's `/api/story/...`
requests would reach the 404 fallback. The model treats the story API as
reachable and models its handlers as written.

Each route handler is a pure function from the request, the table it works on
and the session to the response, the new table and the new session. The
database is a Dafny map: `PostTable.Table` holds the `posts` rows and the serial
counter, and `StoryApi.Scenes` maps `scene_id` to the rest of a `story_scenes` row.
What the handlers cannot see is passed in as a value. This covers a query that
throws (`fault`), `bcrypt.compare`, `JSON.stringify`, `NOW()`, the first
instant of the current month, and the `admins` rows.

Modules:

- `Wrappers`: `Option`.
- `JsString`: the ECMAScript string built-ins used here. These are `trim`
  (with the WhiteSpace and LineTerminator code points), `split` on one
  character, `join`, `includes`, and truthiness.
- `Lex`: code-point text order and the ascending listing of a finite set,
  standing for `ORDER BY` on a text column.
- `PostTable`: the posts map and its newest-first listing.
- `Auth`, `Database`, `Admin`, `StoryApi`, `StoryEditor`: the five source files.

Only the editor trims lines and drops blank ones (`StoryEditor.Normalise`).
The server stores the serialisation of whatever arrays it receives
(`StoryApi.UpdateScene`):

- `StoryApi.ServerDoesNotNormalise` states that the server stores verbatim.
- `StoryEditor.SaveStoresNormalisedLines` states that an editor save stores
  normalised lines.

## Model

| member | source | states |
|---|---|---|
| Auth.RequireAuth | middleware/auth.js:3-8 | the handler runs exactly when the session is authenticated; otherwise the request is redirected to `/admin/login` |
| Auth.RedirectIfAuthenticated | middleware/auth.js:10-15 | an authenticated session is redirected to `/admin` exactly when it is authenticated; any other goes on to the handler |
| Auth.ExactlyOneGatePasses | middleware/auth.js:3-15 | for every session exactly one of the two gates lets the request through |
| Database.IsConnectionError | config/database.js:24-36 | a listed code gives `true`; with an unlisted code and no message the result is `undefined`, not `false`; `false` only when a message is present and lacks "connect" |
| Database.ClassifierCharacterised | config/database.js:33-35 | truthy exactly when the code is one of the six listed codes or the message contains "connect"; with a message and an unlisted code the value is the boolean "contains connect", so the "connection" test is subsumed |
| Database.CapitalisedMessageNotMatched | config/database.js:33-35 | matching is case-sensitive: "Connection refused" under an unlisted code classifies as `false` |
| Database.DependsOnlyOnCodeAndMessage | config/database.js:24-36 | the classification reads only the code and the message of the error |
| JsString.Trim | public/js/story-editor.js:90-92 | `trim` leaves no whitespace at either end |
| JsString.TrimCuts | public/js/story-editor.js:90-92 | `trim` returns a contiguous piece of its input, and all it cuts from either side is whitespace |
| JsString.TrimFixpoint | public/js/story-editor.js:90-92 | a string with no whitespace at either end is its own trim |
| JsString.TrimIdempotent | public/js/story-editor.js:90-92 | trimming twice is trimming once |
| JsString.TrimKeepsOut | public/js/story-editor.js:90-91 | trimming adds no character, so a trimmed line of a split still holds no newline |
| JsString.Split | public/js/story-editor.js:90-91 | `split('\n')` yields at least one piece and no piece holds the separator |
| JsString.JoinSplit | public/js/story-editor.js:72-73 | joining the pieces of a split with the same separator gives back the text |
| JsString.SplitJoin | public/js/story-editor.js:72-91 | splitting the join of a non-empty list of separator-free lines gives back the list |
| JsString.SplitWithoutSeparator | public/js/story-editor.js:90-91 | a text without the separator splits into itself alone |
| JsString.SplitAtSeparator | public/js/story-editor.js:90-91 | a separator-free piece, one separator and a rest split into that piece followed by the pieces of the rest |
| JsString.IncludesIffOccurs | config/database.js:34-35 | `includes` holds exactly when the substring occurs at some index |
| JsString.IncludesPrefix | config/database.js:34-35 | a text that includes "connection" includes "connect" |
| Lex.SortedList | routes/story-api.js:10 | the listing of a set of texts has every element exactly once, in strictly ascending order |
| Lex.BelowTransitive | routes/story-api.js:24 | the text order is transitive |
| Lex.BelowTotal | routes/story-api.js:24 | any two different texts are ordered one way or the other |
| Lex.BelowIrreflexive | routes/story-api.js:24 | no text sorts before itself |
| PostTable.NewestFirst | routes/admin.js:94-96 | the listing holds every stored post exactly once as its row, newest first |
| PostTable.PrefixIsNewest | routes/admin.js:71-73 | each of the first n rows of the listing is at least as new as any post not among them |
| Admin.FindAdmin | routes/admin.js:17-26 | the admin found has the requested username; when none is found, no admin has that username or no username was sent |
| Admin.Login | routes/admin.js:13-45 | login redirects to `/admin` exactly when a row matches and the password check succeeds, and then records that admin in the session; a thrown query or a thrown password check shows "An error occurred. Please try again."; an unknown username or a wrong password shows "Invalid username or password"; on every failure the session is unchanged |
| Admin.LoginDoesNotRevealUsernames | routes/admin.js:22-32 | an unknown username and a wrong password for a known one give the same response and session |
| Admin.Logout | routes/admin.js:48-55 | logout redirects home with a fresh session (no flag, no admin snapshot) and no table change |
| Admin.RecentIds | routes/admin.js:62-69 | the month's posts are exactly the stored ones created at or after the first instant of the month |
| Admin.NewestSummaries | routes/admin.js:71-73 | at most five stored posts, each at most once, newest first, and no post left out is newer than one listed |
| Admin.Dashboard | routes/admin.js:58-89 | the total is the number of posts; the recent count is the size of the month's set and never exceeds the total; the list is the five newest; a query failure shows zero statistics and an empty list |
| Admin.PostsList | routes/admin.js:92-106 | every stored post once, newest first, with the query message and a type defaulting to "success"; on failure an empty list and no message |
| Admin.CreatePost | routes/admin.js:114-139 | a falsy title or content re-renders the form with the submitted values and writes nothing; on success exactly one post is added under the next id, with the success flash; on failure nothing is written |
| Admin.EditPostForm | routes/admin.js:142-155 | the form shows the stored row with that id, or redirects with the not-found or load-error flash |
| Admin.UpdatePost | routes/admin.js:158-189 | validation as for create; an absent id gives the not-found flash; otherwise only that post's title and content change and its creation time is kept |
| Admin.DeletePost | routes/admin.js:192-205 | an absent id gives the not-found flash and no change; otherwise exactly that post is removed |
| Admin.NewPostForm | routes/admin.js:109-111 | the new-post form renders the edit view in create mode with no post and no error, and changes nothing |
| Admin.Authorised | routes/admin.js:58-213 | the protected handlers never change the session; the read-only ones never change the table; the story-editor page carries the session's admin snapshot |
| Admin.Handle | routes/admin.js:8-213 | logout is ungated; the login page and the login form are behind `redirectIfAuthenticated`; every other route is behind `requireAuth`; only login and logout can change the session |
| Admin.ProtectedNeedsLogin | routes/admin.js:58-213 | without an authenticated session every protected route redirects to the login page and nothing changes |
| Admin.LoggedInSkipsLogin | routes/admin.js:8-13 | an authenticated session asking for the login page or posting the login form goes to the dashboard |
| Admin.ReadsDoNotWrite | routes/admin.js:58-155 | the read-only routes never change the posts table |
| Admin.HandlePreservesValid | routes/admin.js:114-205 | every route keeps every stored id below the next serial id |
| Admin.OnlyLoginAuthenticates | routes/admin.js:34-38 | an unauthenticated session becomes authenticated only through a successful login |
| Admin.CreatedPostListedFirst | routes/admin.js:126-130 | a post created with a clock no earlier than any stored post heads the posts list |
| Admin.CreatedPostReadsBack | routes/admin.js:126-150 | a created post reads back through the edit form with its title and content |
| Admin.CreateCountsAsRecent | routes/admin.js:60-69 | creating a post within the current month raises both dashboard counts by exactly one |
| Admin.InsertCounts | routes/admin.js:66-69 | adding a post under a fresh id, dated in the month, adds one to the size and one to the month's count |
| StoryApi.ListFiles | routes/story-api.js:7-17 | the file list holds exactly the file paths of stored scenes, once each, ascending; a thrown error gives 500 with its message |
| StoryApi.RefsOf | routes/story-api.js:23-27 | the listed references are exactly the (scene_id, location) pairs of the rows filed under the path |
| StoryApi.ListScenes | routes/story-api.js:20-32 | the scene list holds exactly the (scene_id, location) pairs of the rows whose file path is the whole remaining path, ascending by id; a thrown error gives 500 |
| StoryApi.GetScene | routes/story-api.js:35-49 | 404 "Scene not found" exactly when no row has the id; otherwise the whole row; the table never changes |
| StoryApi.UpdateScene | routes/story-api.js:52-73 | for a present id, script and actions become the serialisation of what was received, location is stored as sent, updated_at is the clock, and no other row changes; an absent id gives 404 and no change; a thrown error gives 500 and no change |
| StoryApi.Serialise | routes/story-api.js:61 | a missing field is bound as NULL and a present list as its serialisation |
| StoryApi.UpdateThenGet | routes/story-api.js:35-73 | reading a scene after updating it returns the location as sent, the serialised lines and the new timestamp |
| StoryApi.Handle | routes/story-api.js:7-73 | without an authenticated session every route redirects to the login page; with one, each route's outcome is exactly its handler's: `ListFiles`, `ListScenes`, `GetScene` or `UpdateScene` |
| StoryApi.UnauthenticatedRedirected | routes/story-api.js:7-73 | without an authenticated session every route redirects to the login page and the table is untouched |
| StoryApi.ReadsDoNotWrite | routes/story-api.js:7-49 | the three GET routes never change the table |
| StoryApi.EnvelopeMatchesStatus | routes/story-api.js:7-73 | `success` is true exactly when the status is 200; a failure is the 404 or a 500 carrying the thrown message; a thrown error never changes the table |
| StoryApi.ServerDoesNotNormalise | routes/story-api.js:53-61 | different received line lists are stored differently whenever the serialiser tells them apart: the server does not trim or drop lines |
| StoryEditor.DropBlank | public/js/story-editor.js:90-91 | the filter keeps the non-empty lines in order, and every non-empty line as often as it occurs |
| StoryEditor.TrimmedSegments | public/js/story-editor.js:90-91 | every line after split and trim is trimmed and holds no newline |
| StoryEditor.Normalise | public/js/story-editor.js:90-91 | the saved lines are non-empty, trimmed and single-line, in the text's order, and every non-blank trimmed line of the text is kept as often as it occurs |
| StoryEditor.DropBlankNoBlanks | public/js/story-editor.js:90-91 | the filter leaves a list with no empty line unchanged |
| StoryEditor.JoinThenNormalise | public/js/story-editor.js:72-91 | stored canonical lines survive the join on load and the normalisation on save unchanged |
| StoryEditor.NormaliseIdempotent | public/js/story-editor.js:90-91 | normalising the joined result of a normalisation changes nothing |
| StoryEditor.Load | public/js/story-editor.js:71-73 | a missing location loads as the empty text and a present one as itself; a present line list loads as its `'\n'`-join and a missing one as the empty text |
| StoryEditor.Save | public/js/story-editor.js:87-100 | nothing is sent exactly when no scene is selected; otherwise the request goes to `/api/story/scene/<selected id>` with the id as selected, its script and actions are the normalised text areas (canonical lines) and its location is the trimmed input |
| StoryEditor.SaveTreatsScriptAndActionsAlike | public/js/story-editor.js:90-91 | script and actions go through the same transformation |
| StoryEditor.LoadThenSaveUnchanged | public/js/story-editor.js:71-92 | opening a scene with canonical lines and a trimmed location and saving it unedited sends back exactly what is stored, when the form controls keep the text as written |
| StoryEditor.SaveStoresNormalisedLines | public/js/story-editor.js:90-100 | a save from the editor stores the serialisation of the normalised text areas and the trimmed location, for an id that reaches the route unchanged |

## Left out

- `server.js`, `routes/public.js`, the EJS views and the static pages are not
  part of this model.
- Pool configuration and the pool's `error` and `connect` listeners in
  `config/database.js` are configuration and logging, not logic.
- Logging (`console.error`) is left out. So are the editor's DOM updates,
  `fetch` calls, button state and the 3-second status-message timer: they are
  I/O and time.
- `bcrypt.compare` and `JSON.stringify` are function parameters: their
  algorithms are outside the core. A compare that throws is `None`.
- The database clock `NOW()` and the local-time first instant of the month
  are inputs. Time zones and the `Date` arithmetic that computes them are not
  modelled.
- PostTable.NewestFirst: SQL leaves the order of equal `created_at` values
  unspecified; the model fixes it as larger id first.
- Lex.Below: text ordering is modelled as code-point order (the "C"
  collation); a locale collation of the database is not modelled.
- Admin.Dashboard: `COUNT(*)` reaches the view as a text value in the
  driver; the model uses the number.
- Admin.Dashboard: the three queries are modelled as one consistent read of
  the table; the transient inconsistency of unsynchronised queries is left out.
- Admin.PostsList: on failure the page gets `message: null` and no
  `messageType`; both are modelled as `None`.
- Admin.Logout: a failure to destroy the session is only logged by the
  source, so the model always ends with a fresh session.
- A non-numeric `:id` makes the database raise an error. The model takes
  integer ids and folds that error into the `fault` input.
- Body fields of types other than string (numbers, arrays sent as a title)
  are not modelled. Title, content, username and password are optional
  strings.
- In the scene update, a JSON `null` for `script` or `actions` would be
  stored as the text `null`. The model has only present arrays and missing
  fields. A request without a body reaches the handler with an empty body
  object, which is the all-missing `UpdateBody(None, None, None)` and writes
  NULL to all three columns.
- Body parsing (`server.js:20-21`) is not modelled. A request body that does
  not parse, or that is over the parsers' default limit of 100 kB, never
  reaches a handler. The error handler (`server.js:58-65`) then answers 500
  with its HTML error page, whatever status the parser raised. This applies
  to the scene PUT and to the admin login, create and update forms alike.
  Percent-encoded non-ASCII text takes up to nine bytes per character, so a
  long Korean post can reach the limit. Every handler in the model receives a
  body that parsed.
- The session's `isAuthenticated` flag is a boolean; a truthy non-boolean
  value is not modelled.
- The editor's PUT body is assumed to reach the server unchanged through JSON,
  and a `details` line list is assumed to come back as the array stored.
- StoryEditor.LoadThenSaveUnchanged: the form controls are taken to hold
  text exactly as written. A browser does not do that. A text area's value
  turns CR and CRLF into LF, so a stored line `a\rb` is read back as the two
  lines `a` and `b`. The single-line location input strips CR and LF, so a
  stored location `Hall\nway` is read back as `Hallway`. Line-break rewriting
  by form controls is not modelled. For the source, the lemma holds only for
  stored lines without CR and a location without CR or LF.
- StoryEditor.SaveStoresNormalisedLines: it assumes the scene id reaches
  `:sceneId` unchanged. The editor puts the id into the URL without encoding it
  (`public/js/story-editor.js:97`). An id holding `?` or `#` arrives cut short,
  so `a?b` updates scene `a`. An id holding `/` matches no route. An id holding
  `%` is percent-decoded into another id, or fails to decode. URL parsing and
  decoding are not modelled, so the lemma covers only ids that contain none of
  these characters.
- Admin.CreatedPostListedFirst: when a stored post has the same timestamp as
  the new one, the conclusion rests on the model's larger-id-first tie order
  (see PostTable.NewestFirst). SQL leaves tied rows unordered, so for the
  source the lemma holds only when the clock is strictly later than every
  stored timestamp.
- `isConnectionError` is not modelled for a `null` or `undefined` error value,
  for which the source itself throws.
- Concurrency between requests is not modelled; each handler is one atomic
  step.

=== FILE: admin.dfy ===
/** The admin controller (routes/admin.js): login and logout, the dashboard
    statistics, and create/edit/update/delete of posts. Each handler is a pure
    function from the request, the posts table and the session to the response,
    the new table and the new session. SQL is replaced by the `PostTable` map,
    `bcrypt.compare` by a parameter, and a query that throws by the `fault` flag. */
module Admin {
  import opened Wrappers
  import opened JsString
  import opened PostTable
  import Auth

  /** A row of `admins`; seeded out of band and only read here. */
  datatype AdminRow = AdminRow(id: int, username: string, passwordHash: string)

  /** A dashboard row: `SELECT id, title, created_at`. */
  datatype Summary = Summary(id: int, title: string, createdAt: int)

  /** The `post` handed to the edit view: none (new form), the submitted values
      (re-rendered after an error), or a stored row. */
  datatype PostForm =
    | NoPost
    | Submitted(id: Option<int>, title: Option<string>, content: Option<string>)
    | Existing(row: PostRow)

  /** The views the controller renders, with the locals it passes them. */
  datatype Page =
    | LoginPage(error: Option<string>)
    | DashboardPage(totalPosts: nat, recentCount: nat, recentPosts: seq<Summary>)
    | PostsPage(posts: seq<PostRow>, message: Option<string>, messageType: Option<string>)
    | EditPostPage(isEdit: bool, post: PostForm, error: Option<string>)
    | StoryEditorPage(adminUser: Option<Auth.AdminUser>)

  datatype Response = Render(page: Page) | Redirect(url: string)

  /** A handler's response and the posts table after it. */
  datatype Step = Step(response: Response, table: Table)

  /** The response, the posts table after the request, and the session after it. */
  datatype Result = Result(response: Response, table: Table, session: Auth.Session)

  /** The outside world of one request: the `admins` rows, the password check
      standing for `bcrypt.compare` (`None` when it throws), the database clock,
      the first instant of the current month, and whether a query throws. */
  datatype Env = Env(admins: seq<AdminRow>, compare: (Option<string>, string) -> Option<bool>,
                     now: int, monthStart: int, fault: bool)

  const InvalidCredentials := "Invalid username or password"
  const LoginFailed := "An error occurred. Please try again."
  const FieldsRequired := "Title and content are required"
  const CreateFailed := "Failed to create post"
  const UpdateFailed := "Failed to update post"
  const HomeUrl := "/"
  const CreatedUrl := "/admin/posts?message=Post created successfully"
  const UpdatedUrl := "/admin/posts?message=Post updated successfully"
  const DeletedUrl := "/admin/posts?message=Post deleted successfully"
  const NotFoundUrl := "/admin/posts?message=Post not found&type=error"
  const LoadFailedUrl := "/admin/posts?message=Error loading post&type=error"
  const DeleteFailedUrl := "/admin/posts?message=Failed to delete post&type=error"
  const RecentLimit := 5

  // ---------------------------------------------------------------- login

  /** `SELECT * FROM admins WHERE username = $1`, first row. A missing username
      is bound as NULL, which matches no row. */
  function FindAdmin(admins: seq<AdminRow>, username: Option<string>): (r: Option<AdminRow>)
    ensures r.Some? ==> username.Some? && r.value in admins && r.value.username == username.value
    ensures r.None? ==> username.None? || forall a :: a in admins ==> a.username != username.value
  {
    if username.None? || |admins| == 0 then None
    else if admins[0].username == username.value then Some(admins[0])
    else FindAdmin(admins[1..], username)
  }

  /** The session is logged in as `a`. */
  predicate LoggedInAs(s: Auth.Session, a: AdminRow) {
    s == Auth.Session(true, Some(Auth.AdminUser(a.id, a.username)))
  }

  /** `POST /login` (after its gate). The session changes only when a row
      matches and the password check holds, and then records that row's id and
      username; every other case re-renders the login page with an error and
      leaves the session as it was. */
  function Login(t: Table, session: Auth.Session, username: Option<string>, password: Option<string>,
                 env: Env): (r: Result)
    ensures r.table == t
    ensures r.response == Redirect(Auth.DashboardUrl)
            <==> !env.fault && FindAdmin(env.admins, username).Some?
                 && env.compare(password, FindAdmin(env.admins, username).value.passwordHash) == Some(true)
    ensures r.response == Redirect(Auth.DashboardUrl) ==> LoggedInAs(r.session, FindAdmin(env.admins, username).value)
    ensures env.fault ==> r == Result(Render(LoginPage(Some(LoginFailed))), t, session)
    ensures !env.fault && FindAdmin(env.admins, username).None? ==>
              r == Result(Render(LoginPage(Some(InvalidCredentials))), t, session)
    ensures !env.fault && FindAdmin(env.admins, username).Some? ==>
              var verdict := env.compare(password, FindAdmin(env.admins, username).value.passwordHash);
              && (verdict.None? ==> r == Result(Render(LoginPage(Some(LoginFailed))), t, session))
              && (verdict == Some(false) ==> r == Result(Render(LoginPage(Some(InvalidCredentials))), t, session))
    ensures r.response != Redirect(Auth.DashboardUrl) ==>
              r.session == session
              && (r.response == Render(LoginPage(Some(InvalidCredentials)))
                  || r.response == Render(LoginPage(Some(LoginFailed))))
  {
    if env.fault then Result(Render(LoginPage(Some(LoginFailed))), t, session)
    else
      match FindAdmin(env.admins, username)
      case None => Result(Render(LoginPage(Some(InvalidCredentials))), t, session)
      case Some(a) =>
        match env.compare(password, a.passwordHash)
        case None => Result(Render(LoginPage(Some(LoginFailed))), t, session)
        case Some(false) => Result(Render(LoginPage(Some(InvalidCredentials))), t, session)
        case Some(true) =>
          Result(Redirect(Auth.DashboardUrl), t, Auth.Session(true, Some(Auth.AdminUser(a.id, a.username))))
  }

  /** An unknown username and a wrong password for a known one give the very
      same response and leave the session alone: the two cannot be told apart. */
  lemma LoginDoesNotRevealUsernames(t: Table, session: Auth.Session, unknown: Option<string>,
                                    known: Option<string>, password: Option<string>, env: Env)
    requires FindAdmin(env.admins, unknown).None?
    requires FindAdmin(env.admins, known).Some?
    requires env.compare(password, FindAdmin(env.admins, known).value.passwordHash) == Some(false)
    ensures Login(t, session, unknown, password, env) == Login(t, session, known, password, env)
    ensures !env.fault ==> Login(t, session, unknown, password, env)
                           == Result(Render(LoginPage(Some(InvalidCredentials))), t, session)
  {
  }

  /** `GET /logout`: the session is destroyed (a destroy error is only logged),
      so neither the flag nor the admin snapshot survives. */
  function Logout(t: Table): (r: Result)
    ensures r.response == Redirect(HomeUrl) && r.table == t
    ensures r.session == Auth.FreshSession && !r.session.isAuthenticated && r.session.adminUser.None?
  {
    Result(Redirect(HomeUrl), t, Auth.FreshSession)
  }

  // ------------------------------------------------------------ dashboard

  function Min(a: int, b: int): int {
    if a <= b then a else b
  }

  /** The ids of posts created on or after `monthStart`. */
  function RecentIds(posts: map<int, Post>, monthStart: int): (ids: set<int>)
    ensures ids <= posts.Keys
    ensures forall id :: id in ids <==> id in posts && posts[id].createdAt >= monthStart
  {
    set id | id in posts && posts[id].createdAt >= monthStart
  }

  function Summarise(rows: seq<PostRow>): (r: seq<Summary>)
    ensures |r| == |rows|
    ensures forall i :: 0 <= i < |r| ==> r[i] == Summary(rows[i].id, rows[i].title, rows[i].createdAt)
  {
    seq(|rows|, i requires 0 <= i < |rows| => Summary(rows[i].id, rows[i].title, rows[i].createdAt))
  }

  /** `s` is the summary of a stored post. */
  predicate SummaryOf(posts: map<int, Post>, s: Summary) {
    s.id in posts && posts[s.id].title == s.title && posts[s.id].createdAt == s.createdAt
  }

  /** Some summary of the list is for post `id`. */
  predicate Mentions(summaries: seq<Summary>, id: int) {
    exists i :: 0 <= i < |summaries| && summaries[i].id == id
  }

  /** The dashboard's list: the `RecentLimit` newest posts, newest first, as
      summaries of stored posts; no post left out is newer than one listed. */
  function NewestSummaries(posts: map<int, Post>): (recent: seq<Summary>)
    ensures |recent| == Min(RecentLimit, |posts|)
    ensures forall i, j :: 0 <= i < j < |recent| ==> recent[i].createdAt >= recent[j].createdAt
    ensures forall i, j :: 0 <= i < j < |recent| ==> recent[i].id != recent[j].id
    ensures forall i :: 0 <= i < |recent| ==> SummaryOf(posts, recent[i])
    ensures forall id, i :: id in posts && !Mentions(recent, id) && 0 <= i < |recent|
              ==> recent[i].createdAt >= posts[id].createdAt
  {
    var n := Min(RecentLimit, |posts|);
    var recent := Summarise(NewestFirst(posts)[..n]);
    TopIsOrdered(posts, n);
    TopIsDistinct(posts, n);
    TopIsStored(posts, n);
    forall id, i | id in posts && !Mentions(recent, id) && 0 <= i < |recent|
      ensures recent[i].createdAt >= posts[id].createdAt
    {
      TopIsNewest(posts, n, id, i);
    }
    recent
  }

  /** The summaries of the `n` newest posts are in non-increasing `createdAt` order. */
  lemma TopIsOrdered(posts: map<int, Post>, n: int)
    requires 0 <= n <= |posts|
    ensures forall i, j :: 0 <= i < j < n ==> Summarise(NewestFirst(posts)[..n])[i].createdAt
                                               >= Summarise(NewestFirst(posts)[..n])[j].createdAt
  {
    var rows := NewestFirst(posts);
    forall i, j | 0 <= i < j < n
      ensures Summarise(rows[..n])[i].createdAt >= Summarise(rows[..n])[j].createdAt
    {
      assert NewerThan(rows[i], rows[j]);
    }
  }

  /** No post is summarised twice among the `n` newest. */
  lemma TopIsDistinct(posts: map<int, Post>, n: int)
    requires 0 <= n <= |posts|
    ensures forall i, j :: 0 <= i < j < n ==> Summarise(NewestFirst(posts)[..n])[i].id
                                               != Summarise(NewestFirst(posts)[..n])[j].id
  {
    var rows := NewestFirst(posts);
    forall i, j | 0 <= i < j < n
      ensures Summarise(rows[..n])[i].id != Summarise(rows[..n])[j].id
    {
      assert NewerThan(rows[i], rows[j]);
      assert rows[i] in rows && rows[j] in rows;
    }
  }

  /** Every summary among the `n` newest is that of a stored post. */
  lemma TopIsStored(posts: map<int, Post>, n: int)
    requires 0 <= n <= |posts|
    ensures forall i :: 0 <= i < n ==> SummaryOf(posts, Summarise(NewestFirst(posts)[..n])[i])
  {
    var rows := NewestFirst(posts);
    forall i | 0 <= i < n ensures SummaryOf(posts, Summarise(rows[..n])[i]) {
      assert rows[i] in rows;
    }
  }

  /** A post left out of the `n` newest is no newer than any listed one. */
  lemma TopIsNewest(posts: map<int, Post>, n: int, id: int, i: int)
    requires 0 <= i < n <= |posts| && id in posts
    requires !Mentions(Summarise(NewestFirst(posts)[..n]), id)
    ensures Summarise(NewestFirst(posts)[..n])[i].createdAt >= posts[id].createdAt
  {
    var rows := NewestFirst(posts);
    assert forall k :: 0 <= k < n ==> Summarise(rows[..n])[k].id == rows[k].id;
    PrefixIsNewest(posts, n, id, i);
  }

  /** `GET /` of the admin router: total count, the count of posts created since
      the start of the month, and the five newest posts newest first; any query
      failure shows zero statistics and an empty list. */
  function Dashboard(t: Table, env: Env): (r: Step)
    ensures r.table == t && r.response.Render? && r.response.page.DashboardPage?
    ensures env.fault ==> r.response.page == DashboardPage(0, 0, [])
    ensures !env.fault ==>
      var p := r.response.page;
      && p.totalPosts == |t.posts|
      && p.recentCount == |RecentIds(t.posts, env.monthStart)|
      && p.recentCount <= p.totalPosts
      && p.recentPosts == NewestSummaries(t.posts)
  {
    if env.fault then Step(Render(DashboardPage(0, 0, [])), t)
    else
      var ids := RecentIds(t.posts, env.monthStart);
      assert |ids| <= |t.posts.Keys| by {
        SubsetCard(ids, t.posts.Keys);
      }
      Step(Render(DashboardPage(|t.posts|, |ids|, NewestSummaries(t.posts))), t)
  }

  lemma {:induction false} SubsetCard(a: set<int>, b: set<int>)
    requires a <= b
    ensures |a| <= |b|
    decreases |a|
  {
    if |a| > 0 {
      if forall x :: x !in a {
        assert false;
      }
      var x :| x in a;
      SubsetCard(a - {x}, b - {x});
    }
  }

  // ---------------------------------------------------------------- posts

  /** `GET /posts`: every post newest first, with the flash message from the
      query string and its type defaulting to 'success'; on failure an empty list
      and no message. */
  function PostsList(t: Table, message: Option<string>, messageType: Option<string>, env: Env): (r: Step)
    ensures r.table == t && r.response.Render? && r.response.page.PostsPage?
    ensures env.fault ==> r.response.page == PostsPage([], None, None)
    ensures !env.fault ==>
      var p := r.response.page;
      && p.message == message
      && p.messageType == (if Truthy(messageType) then messageType else Some("success"))
      && |p.posts| == |t.posts|
      && NewestFirstOrder(p.posts)
      && forall row :: row in p.posts <==> Stored(t.posts, row)
  {
    if env.fault then Step(Render(PostsPage([], None, None)), t)
    else
      var kind := if Truthy(messageType) then messageType.value else "success";
      Step(Render(PostsPage(NewestFirst(t.posts), message, Some(kind))), t)
  }

  /** `GET /posts/new`. */
  function NewPostForm(t: Table): (r: Step)
    ensures r.table == t
    ensures r.response.Render? && r.response.page.EditPostPage?
    ensures !r.response.page.isEdit && r.response.page.post.NoPost? && r.response.page.error.None?
  {
    Step(Render(EditPostPage(false, NoPost, None)), t)
  }

  /** Title and content are both truthy: present and non-empty. Whitespace
      alone is truthy and passes. */
  predicate FieldsPresent(title: Option<string>, content: Option<string>) {
    Truthy(title) && Truthy(content)
  }

  /** `table` is `t` with exactly one more post, under the next serial id. */
  predicate AddedOne(t: Table, table: Table, p: Post) {
    && t.nextId !in t.posts
    && table.posts.Keys == t.posts.Keys + {t.nextId}
    && table.posts[t.nextId] == p
    && (forall id :: id in t.posts ==> table.posts[id] == t.posts[id])
    && |table.posts| == |t.posts| + 1
    && table.nextId > t.nextId
  }

  /** `POST /posts/new`: a falsy title or content writes nothing and re-renders
      the form with the submitted values; a valid request inserts one post and
      redirects with the success flash. */
  function CreatePost(t: Table, title: Option<string>, content: Option<string>, env: Env): (r: Step)
    ensures Valid(t) ==> Valid(r.table)
    ensures !FieldsPresent(title, content) ==>
      r == Step(Render(EditPostPage(false, Submitted(None, title, content), Some(FieldsRequired))), t)
    ensures FieldsPresent(title, content) && env.fault ==>
      r == Step(Render(EditPostPage(false, Submitted(None, title, content), Some(CreateFailed))), t)
    ensures FieldsPresent(title, content) && !env.fault ==>
      && r.response == Redirect(CreatedUrl)
      && (Valid(t) ==> AddedOne(t, r.table, Post(title.value, content.value, env.now)))
  {
    if !FieldsPresent(title, content) then
      Step(Render(EditPostPage(false, Submitted(None, title, content), Some(FieldsRequired))), t)
    else if env.fault then
      Step(Render(EditPostPage(false, Submitted(None, title, content), Some(CreateFailed))), t)
    else
      var table := Table(t.posts[t.nextId := Post(title.value, content.value, env.now)], t.nextId + 1);
      Step(Redirect(CreatedUrl), table)
  }

  /** `GET /posts/edit/:id`: the stored post, or the not-found flash. */
  function EditPostForm(t: Table, id: int, env: Env): (r: Step)
    ensures r.table == t
    ensures env.fault ==> r.response == Redirect(LoadFailedUrl)
    ensures !env.fault && id !in t.posts ==> r.response == Redirect(NotFoundUrl)
    ensures !env.fault && id in t.posts ==>
      r.response.Render? && r.response.page.EditPostPage? && r.response.page.isEdit
      && r.response.page.post.Existing? && Stored(t.posts, r.response.page.post.row)
      && r.response.page.post.row.id == id && r.response.page.error.None?
  {
    if env.fault then Step(Redirect(LoadFailedUrl), t)
    else if id !in t.posts then Step(Redirect(NotFoundUrl), t)
    else Step(Render(EditPostPage(true, Existing(RowOf(t.posts, id)), None)), t)
  }

  /** `POST /posts/edit/:id`: validation as for create; an absent id gives the
      not-found flash and no change; otherwise only that post's title and
      content change. */
  function UpdatePost(t: Table, id: int, title: Option<string>, content: Option<string>, env: Env): (r: Step)
    ensures Valid(t) ==> Valid(r.table)
    ensures !FieldsPresent(title, content) ==>
      r == Step(Render(EditPostPage(true, Submitted(Some(id), title, content), Some(FieldsRequired))), t)
    ensures FieldsPresent(title, content) && env.fault ==>
      r == Step(Render(EditPostPage(true, Submitted(Some(id), title, content), Some(UpdateFailed))), t)
    ensures FieldsPresent(title, content) && !env.fault && id !in t.posts ==>
      r == Step(Redirect(NotFoundUrl), t)
    ensures FieldsPresent(title, content) && !env.fault && id in t.posts ==>
      && r.response == Redirect(UpdatedUrl)
      && r.table.nextId == t.nextId
      && r.table.posts.Keys == t.posts.Keys
      && r.table.posts[id] == Post(title.value, content.value, t.posts[id].createdAt)
      && (forall other :: other in t.posts && other != id ==> r.table.posts[other] == t.posts[other])
  {
    if !FieldsPresent(title, content) then
      Step(Render(EditPostPage(true, Submitted(Some(id), title, content), Some(FieldsRequired))), t)
    else if env.fault then
      Step(Render(EditPostPage(true, Submitted(Some(id), title, content), Some(UpdateFailed))), t)
    else if id !in t.posts then Step(Redirect(NotFoundUrl), t)
    else
      var post := t.posts[id];
      Step(Redirect(UpdatedUrl), Table(t.posts[id := Post(title.value, content.value, post.createdAt)], t.nextId))
  }

  /** `POST /posts/delete/:id`: an absent id gives the not-found flash and no
      change; otherwise exactly that post is removed. */
  function DeletePost(t: Table, id: int, env: Env): (r: Step)
    ensures Valid(t) ==> Valid(r.table)
    ensures env.fault ==> r == Step(Redirect(DeleteFailedUrl), t)
    ensures !env.fault && id !in t.posts ==> r == Step(Redirect(NotFoundUrl), t)
    ensures !env.fault && id in t.posts ==>
      && r.response == Redirect(DeletedUrl)
      && r.table.nextId == t.nextId
      && r.table.posts.Keys == t.posts.Keys - {id}
      && (forall other :: other in r.table.posts ==> r.table.posts[other] == t.posts[other])
      && |r.table.posts| == |t.posts| - 1
  {
    if env.fault then Step(Redirect(DeleteFailedUrl), t)
    else if id !in t.posts then Step(Redirect(NotFoundUrl), t)
    else Step(Redirect(DeletedUrl), Table(t.posts - {id}, t.nextId))
  }

  // --------------------------------------------------------------- routes

  /** The routes of the router. Route parameters are the numeric ids; a
      non-numeric `:id` makes the query throw, which is the `fault` case. */
  datatype Request =
    | GetLogin
    | PostLogin(username: Option<string>, password: Option<string>)
    | GetLogout
    | GetDashboard
    | GetPosts(message: Option<string>, messageType: Option<string>)
    | GetNewPost
    | PostNewPost(title: Option<string>, content: Option<string>)
    | GetEditPost(id: int)
    | PostEditPost(id: int, title: Option<string>, content: Option<string>)
    | PostDeletePost(id: int)
    | GetStoryEditor

  /** Requests that only read. */
  predicate ReadOnly(req: Request) {
    !(req.PostNewPost? || req.PostEditPost? || req.PostDeletePost?)
  }

  /** Requests behind `requireAuth`. */
  predicate Protected(req: Request) {
    !(req.GetLogin? || req.PostLogin? || req.GetLogout?)
  }

  /** A handler that keeps the session. */
  function WithSession(s: Step, session: Auth.Session): Result {
    Result(s.response, s.table, session)
  }

  /** The handler behind `requireAuth`. */
  function Authorised(req: Request, t: Table, session: Auth.Session, env: Env): (r: Result)
    requires Protected(req)
    ensures r.session == session
    ensures ReadOnly(req) ==> r.table == t
    ensures req.GetStoryEditor? ==> r == Result(Render(StoryEditorPage(session.adminUser)), t, session)
  {
    match req
    case GetDashboard => WithSession(Dashboard(t, env), session)
    case GetPosts(m, k) => WithSession(PostsList(t, m, k, env), session)
    case GetNewPost => WithSession(NewPostForm(t), session)
    case PostNewPost(title, content) => WithSession(CreatePost(t, title, content, env), session)
    case GetEditPost(id) => WithSession(EditPostForm(t, id, env), session)
    case PostEditPost(id, title, content) => WithSession(UpdatePost(t, id, title, content, env), session)
    case PostDeletePost(id) => WithSession(DeletePost(t, id, env), session)
    case GetStoryEditor => Result(Render(StoryEditorPage(session.adminUser)), t, session)
  }

  /** A request as the router runs it: the gate first, then the handler. */
  function Handle(req: Request, t: Table, session: Auth.Session, env: Env): (r: Result)
    ensures req.GetLogout? ==> r == Logout(t)
    ensures req.GetLogin? ==>
              r == Result(if session.isAuthenticated then Redirect(Auth.DashboardUrl) else Render(LoginPage(None)),
                          t, session)
    ensures req.PostLogin? && !session.isAuthenticated ==> r == Login(t, session, req.username, req.password, env)
    ensures Protected(req) && !session.isAuthenticated ==> r == Result(Redirect(Auth.LoginUrl), t, session)
    ensures Protected(req) && session.isAuthenticated ==> r == Authorised(req, t, session, env)
    ensures !req.GetLogout? && !req.PostLogin? ==> r.session == session
  {
    match req
    case GetLogout => Logout(t)
    case GetLogin =>
      (match Auth.RedirectIfAuthenticated(session)
       case Redirect(url) => Result(Redirect(url), t, session)
       case Next => Result(Render(LoginPage(None)), t, session))
    case PostLogin(username, password) =>
      (match Auth.RedirectIfAuthenticated(session)
       case Redirect(url) => Result(Redirect(url), t, session)
       case Next => Login(t, session, username, password, env))
    case _ =>
      (match Auth.RequireAuth(session)
       case Redirect(url) => Result(Redirect(url), t, session)
       case Next => Authorised(req, t, session, env))
  }

  /** Without an authenticated session no protected handler runs: the request
      is redirected to the login page and nothing changes. */
  lemma ProtectedNeedsLogin(req: Request, t: Table, session: Auth.Session, env: Env)
    requires Protected(req) && !session.isAuthenticated
    ensures Handle(req, t, session, env) == Result(Redirect(Auth.LoginUrl), t, session)
  {
  }

  /** An authenticated session asking for the login page or posting the login
      form is sent to the dashboard and nothing changes. */
  lemma LoggedInSkipsLogin(req: Request, t: Table, session: Auth.Session, env: Env)
    requires (req.GetLogin? || req.PostLogin?) && session.isAuthenticated
    ensures Handle(req, t, session, env) == Result(Redirect(Auth.DashboardUrl), t, session)
  {
  }

  /** Read-only requests never change the posts table. */
  lemma ReadsDoNotWrite(req: Request, t: Table, session: Auth.Session, env: Env)
    requires ReadOnly(req)
    ensures Handle(req, t, session, env).table == t
  {
  }

  /** Every request keeps the id-sequence invariant of the table. */
  lemma HandlePreservesValid(req: Request, t: Table, session: Auth.Session, env: Env)
    requires Valid(t)
    ensures Valid(Handle(req, t, session, env).table)
  {
  }

  /** Only a successful login authenticates a session. */
  lemma OnlyLoginAuthenticates(req: Request, t: Table, session: Auth.Session, env: Env)
    requires !session.isAuthenticated
    ensures Handle(req, t, session, env).session.isAuthenticated ==>
              req.PostLogin? && Handle(req, t, session, env).response == Redirect(Auth.DashboardUrl)
  {
  }

  // ----------------------------------------------------------- scenarios

  /** A post created with a clock no earlier than any stored timestamp is listed
      first by the posts page. */
  lemma CreatedPostListedFirst(t: Table, title: string, content: string, env: Env)
    requires Valid(t) && !env.fault && title != "" && content != ""
    requires forall id :: id in t.posts ==> t.posts[id].createdAt <= env.now
    ensures var created := CreatePost(t, Some(title), Some(content), env).table;
            var page := PostsList(created, None, None, env).response.page;
            |page.posts| > 0 && page.posts[0] == PostRow(t.nextId, title, content, env.now)
  {
    var created := CreatePost(t, Some(title), Some(content), env).table;
    var rows := NewestFirst(created.posts);
    var newRow := PostRow(t.nextId, title, content, env.now);
    assert Stored(created.posts, newRow);
    var k :| 0 <= k < |rows| && rows[k] == newRow;
    var first := rows[0];
    assert Stored(created.posts, first);
    assert first.id != t.nextId ==> first.id in t.posts && NewerThan(newRow, first);
  }

  /** A created post reads back through the edit form with the title and
      content it was created with. */
  lemma CreatedPostReadsBack(t: Table, title: string, content: string, env: Env)
    requires Valid(t) && !env.fault && title != "" && content != ""
    ensures var created := CreatePost(t, Some(title), Some(content), env).table;
            EditPostForm(created, t.nextId, env).response
            == Render(EditPostPage(true, Existing(PostRow(t.nextId, title, content, env.now)), None))
  {
  }

  /** Creating a post at a time within the current month raises both dashboard
      counts by exactly one. */
  lemma CreateCountsAsRecent(t: Table, title: string, content: string, env: Env)
    requires Valid(t) && !env.fault && title != "" && content != ""
    requires env.monthStart <= env.now
    ensures var before := Dashboard(t, env).response.page;
            var after := Dashboard(CreatePost(t, Some(title), Some(content), env).table, env).response.page;
            after.totalPosts == before.totalPosts + 1 && after.recentCount == before.recentCount + 1
  {
    var created := CreatePost(t, Some(title), Some(content), env).table;
    assert created.posts == t.posts[t.nextId := Post(title, content, env.now)];
    InsertCounts(t, Post(title, content, env.now), env.monthStart);
  }

  /** Inserting a post under a fresh id, dated on or after `monthStart`, adds one
      to the table's size and one to the month's count. */
  lemma InsertCounts(t: Table, p: Post, monthStart: int)
    requires Valid(t) && p.createdAt >= monthStart
    ensures |t.posts[t.nextId := p]| == |t.posts| + 1
    ensures |RecentIds(t.posts[t.nextId := p], monthStart)| == |RecentIds(t.posts, monthStart)| + 1
  {
    assert t.nextId !in t.posts;
    var before := RecentIds(t.posts, monthStart);
    var after := RecentIds(t.posts[t.nextId := p], monthStart);
    assert t.nextId !in before;
    assert after == before + {t.nextId};
  }
}

=== FILE: auth.dfy ===
/** The session-based auth guard (middleware/auth.js): two gates that either let
    a request through to its handler or short-circuit it with a redirect. */
module Auth {
  import opened Wrappers

  /** The snapshot of the logged-in admin kept in the session. */
  datatype AdminUser = AdminUser(id: int, username: string)

  /** Server-side session state. A fresh session has no authenticated flag,
      which is modelled as `false`. */
  datatype Session = Session(isAuthenticated: bool, adminUser: Option<AdminUser>)

  const FreshSession := Session(false, None)

  /** What a gate does with the request: call `next()` or redirect. */
  datatype Gate = Next | Redirect(url: string)

  const LoginUrl := "/admin/login"
  const DashboardUrl := "/admin"

  /** `requireAuth`: only an authenticated session reaches the handler; any
      other is sent to the login page. */
  function RequireAuth(s: Session): (g: Gate)
    ensures g == Next <==> s.isAuthenticated
    ensures g != Next ==> g == Redirect(LoginUrl)
  {
    if s.isAuthenticated then Next else Redirect(LoginUrl)
  }

  /** `redirectIfAuthenticated`: an authenticated session is sent to the
      dashboard; any other reaches the handler. */
  function RedirectIfAuthenticated(s: Session): (g: Gate)
    ensures g == Redirect(DashboardUrl) <==> s.isAuthenticated
    ensures g != Redirect(DashboardUrl) ==> g == Next
  {
    if s.isAuthenticated then Redirect(DashboardUrl) else Next
  }

  /** For every session exactly one of the two gates lets the request through. */
  lemma ExactlyOneGatePasses(s: Session)
    ensures (RequireAuth(s) == Next) != (RedirectIfAuthenticated(s) == Next)
  {
  }
}

=== FILE: database.dfy ===
/** The connection-failure classifier of the persistence gateway
    (`isConnectionError` in config/database.js). Pool construction and the pool's
    event listeners are configuration and I/O and are not modelled. */
module Database {
  import opened Wrappers
  import opened JsString

  /** The error object a failed query raises. `code` and `message` are the
      fields the classifier reads; `otherFields` stands for every other
      property of the object (stack, detail, severity, ...). */
  datatype DbError = DbError(code: Option<string>, message: Option<string>, otherFields: map<string, string>)

  /** The value a JavaScript boolean expression built with `||` and optional
      chaining can produce here: `true`, `false` or `undefined`. */
  datatype JsBool = JsTrue | JsFalse | JsUndefined {
    predicate Truthy() { JsTrue? }
  }

  function FromBool(b: bool): JsBool {
    if b then JsTrue else JsFalse
  }

  /** JavaScript `a || b`: the left operand when it is truthy, else the right one. */
  function Or(a: JsBool, b: JsBool): JsBool {
    if a.Truthy() then a else b
  }

  /** `message?.includes(sub)`: `undefined` when there is no message. */
  function MessageIncludes(message: Option<string>, sub: string): JsBool {
    match message
    case None => JsUndefined
    case Some(m) => FromBool(Includes(m, sub))
  }

  const ConnectionErrorCodes: seq<string> :=
    ["ECONNREFUSED", "ENOTFOUND", "ETIMEDOUT", "ECONNRESET", "EAI_AGAIN", "PROTOCOL_CONNECTION_LOST"]

  /** `connectionErrorCodes.includes(error.code)`; a missing code is never listed. */
  predicate ListedCode(code: Option<string>) {
    code.Some? && code.value in ConnectionErrorCodes
  }

  /** `isConnectionError(error)`, evaluated exactly as the `||` chain of the source:
      a listed code gives `true`; otherwise the value of the message tests, which
      is `undefined` (not `false`) when the error carries no message. */
  function IsConnectionError(e: DbError): (r: JsBool)
    ensures ListedCode(e.code) ==> r == JsTrue
    ensures !ListedCode(e.code) && e.message.None? ==> r == JsUndefined
    ensures r == JsFalse ==> e.message.Some? && !Includes(e.message.value, "connect")
  {
    var viaMessage := Or(MessageIncludes(e.message, "connection"), MessageIncludes(e.message, "connect"));
    Or(FromBool(ListedCode(e.code)), viaMessage)
  }

  /** The classifier is truthy exactly when the code is listed or the message
      contains "connect"; the separate "connection" test adds nothing. */
  lemma ClassifierCharacterised(e: DbError)
    ensures IsConnectionError(e).Truthy()
            <==> ListedCode(e.code) || (e.message.Some? && Includes(e.message.value, "connect"))
    ensures !ListedCode(e.code) && e.message.Some? ==>
              IsConnectionError(e) == FromBool(Includes(e.message.value, "connect"))
  {
    if e.message.Some? && Includes(e.message.value, "connection") {
      IncludesPrefix(e.message.value, "connection", "connect");
    }
  }

  /** A mismatch at index `j` rules out `sub` being a prefix of `s`. */
  lemma NotPrefix(s: string, sub: string, j: int)
    requires 0 <= j < |sub| && j < |s| && s[j] != sub[j]
    ensures !(sub <= s)
  {
  }

  /** A string none of whose characters starts `sub` does not include it. */
  lemma {:induction false} HeadAbsent(s: string, sub: string)
    requires |sub| > 0
    requires forall i :: 0 <= i < |s| ==> s[i] != sub[0]
    ensures !Includes(s, sub)
  {
    if |s| > 0 {
      NotPrefix(s, sub, 0);
      HeadAbsent(s[1..], sub);
    } else {
      assert !(sub <= s);
    }
  }

  /** "Connection refused" does not contain "connect": its only lower-case `c`
      is followed by `t`. */
  lemma CapitalisedConnectAbsent()
    ensures !Includes("Connection refused", "connect")
  {
    var m := "Connection refused";
    var sub := "connect";
    HeadAbsent(m[6..], sub);
    NotPrefix(m[5..], sub, 1);
    assert m[5..][1..] == m[6..];
    NotPrefix(m[4..], sub, 0);
    assert m[4..][1..] == m[5..];
    NotPrefix(m[3..], sub, 0);
    assert m[3..][1..] == m[4..];
    NotPrefix(m[2..], sub, 0);
    assert m[2..][1..] == m[3..];
    NotPrefix(m[1..], sub, 0);
    assert m[1..][1..] == m[2..];
    NotPrefix(m, sub, 0);
  }

  /** Matching is case-sensitive: "Connection refused" under an unlisted code is
      not a connection error (the result is `false`, not merely falsy). */
  lemma CapitalisedMessageNotMatched(fields: map<string, string>)
    ensures IsConnectionError(DbError(Some("EXYZ"), Some("Connection refused"), fields)) == JsFalse
  {
    var m := "Connection refused";
    var e := DbError(Some("EXYZ"), Some(m), fields);
    assert !ListedCode(e.code);
    CapitalisedConnectAbsent();
    if Includes(m, "connection") {
      IncludesPrefix(m, "connection", "connect");
    }
    assert MessageIncludes(e.message, "connect") == JsFalse;
    assert MessageIncludes(e.message, "connection") == JsFalse;
  }

  /** The result depends only on the `code` and `message` fields. */
  lemma DependsOnlyOnCodeAndMessage(a: DbError, b: DbError)
    requires a.code == b.code && a.message == b.message
    ensures IsConnectionError(a) == IsConnectionError(b)
  {
  }
}

=== FILE: js_string.dfy ===
/** The JavaScript string built-ins the core relies on: `trim`, `split` on one
    character, `Array.prototype.join`, `includes`, and truthiness of an optional
    string. */
module JsString {
  import opened Wrappers

  /** ECMAScript WhiteSpace and LineTerminator code points: exactly what
      `String.prototype.trim` strips from both ends. */
  predicate IsWhitespace(c: char) {
    || c == '\t' || c == '\n' || c == '\U{000B}' || c == '\U{000C}' || c == '\r'
    || c == ' ' || c == '\U{00A0}' || c == '\U{1680}'
    || ('\U{2000}' <= c <= '\U{200A}')
    || c == '\U{2028}' || c == '\U{2029}' || c == '\U{202F}' || c == '\U{205F}'
    || c == '\U{3000}' || c == '\U{FEFF}'
  }

  /** Neither end of `s` is whitespace: `s` is its own trim. */
  predicate IsTrimmed(s: string) {
    s == [] || (!IsWhitespace(s[0]) && !IsWhitespace(s[|s| - 1]))
  }

  /** A JavaScript value of an optional string field is truthy when present and non-empty. */
  predicate Truthy(o: Option<string>) {
    o.Some? && o.value != ""
  }

  /** `s` with its maximal whitespace prefix removed. */
  function TrimStart(s: string): (r: string)
    ensures |r| <= |s| && r == s[|s| - |r|..]
    ensures forall i :: 0 <= i < |s| - |r| ==> IsWhitespace(s[i])
    ensures r == [] || !IsWhitespace(r[0])
  {
    if |s| > 0 && IsWhitespace(s[0]) then
      var r := TrimStart(s[1..]);
      assert s[1..][|s| - 1 - |r|..] == s[|s| - |r|..];
      assert forall i :: 1 <= i < |s| - |r| ==> s[i] == s[1..][i - 1];
      r
    else s
  }

  /** `s` with its maximal whitespace suffix removed. */
  function TrimEnd(s: string): (r: string)
    ensures |r| <= |s| && r == s[..|r|]
    ensures forall i :: |r| <= i < |s| ==> IsWhitespace(s[i])
    ensures r == [] || !IsWhitespace(r[|r| - 1])
  {
    if |s| > 0 && IsWhitespace(s[|s| - 1]) then TrimEnd(s[..|s| - 1]) else s
  }

  /** `String.prototype.trim`: neither end of the result is whitespace. */
  function Trim(s: string): (r: string)
    ensures IsTrimmed(r)
  {
    TrimEnd(TrimStart(s))
  }

  /** What `trim` removes: its result is the piece of `s` that starts where the
      leading whitespace ends, and everything cut away on either side is
      whitespace. */
  lemma TrimCuts(s: string)
    ensures CutFrom(s, |s| - |TrimStart(s)|, Trim(s))
  {
    CutOfSuffix(s, TrimStart(s), Trim(s));
  }

  /** Cutting the trailing whitespace off the suffix left by `TrimStart` leaves a
      piece of `s` with whitespace on both sides. */
  lemma CutOfSuffix(s: string, t: string, r: string)
    requires |t| <= |s| && t == s[|s| - |t|..]
    requires forall i :: 0 <= i < |s| - |t| ==> IsWhitespace(s[i])
    requires |r| <= |t| && r == t[..|r|]
    requires forall i :: |r| <= i < |t| ==> IsWhitespace(t[i])
    ensures CutFrom(s, |s| - |t|, r)
  {
    var k := |s| - |t|;
    assert r == s[k..k + |r|];
    forall i | k + |r| <= i < |s|
      ensures IsWhitespace(s[i])
    {
      assert s[i] == t[i - k];
    }
  }

  /** `r` sits at offset `k` of `s` with only whitespace before and after it. */
  predicate CutFrom(s: string, k: int, r: string) {
    && 0 <= k <= |s| - |r| && r == s[k..k + |r|]
    && (forall i :: 0 <= i < k ==> IsWhitespace(s[i]))
    && (forall i :: k + |r| <= i < |s| ==> IsWhitespace(s[i]))
  }

  /** A string that is already trimmed is left alone by `trim`. */
  lemma TrimFixpoint(s: string)
    requires IsTrimmed(s)
    ensures Trim(s) == s
  {
  }

  /** `trim` is idempotent. */
  lemma TrimIdempotent(s: string)
    ensures Trim(Trim(s)) == Trim(s)
  {
    TrimFixpoint(Trim(s));
  }

  /** Trimming never introduces a character that was not in the input. */
  lemma TrimKeepsOut(s: string, c: char)
    requires c !in s
    ensures c !in Trim(s)
  {
    var t := TrimStart(s);
    SliceKeepsOut(s, |s| - |t|, |s|, c);
    var r := TrimEnd(t);
    SliceKeepsOut(t, 0, |r|, c);
  }

  lemma SliceKeepsOut(s: string, i: int, j: int, c: char)
    requires 0 <= i <= j <= |s| && c !in s
    ensures c !in s[i..j]
  {
    forall k | 0 <= k < j - i
      ensures s[i..j][k] != c
    {
      assert s[i..j][k] == s[i + k];
    }
  }

  /** `s.split(sep)` for a one-character separator: the pieces between
      separators, always at least one (`"".split(sep)` is `[""]`). */
  function Split(s: string, sep: char): (r: seq<string>)
    ensures |r| >= 1
    ensures forall i :: 0 <= i < |r| ==> sep !in r[i]
  {
    if |s| == 0 then [""]
    else
      var rest := Split(s[1..], sep);
      if s[0] == sep then [""] + rest
      else [[s[0]] + rest[0]] + rest[1..]
  }

  /** `lines.join(sep)`: the empty list joins to the empty string. */
  function Join(lines: seq<string>, sep: char): string
  {
    if |lines| == 0 then ""
    else if |lines| == 1 then lines[0]
    else lines[0] + [sep] + Join(lines[1..], sep)
  }

  /** Joining the pieces of a split gives back the string. */
  lemma {:induction false} JoinSplit(s: string, sep: char)
    ensures Join(Split(s, sep), sep) == s
  {
    if |s| > 0 {
      var rest := Split(s[1..], sep);
      JoinSplit(s[1..], sep);
      if s[0] == sep {
        assert Split(s, sep) == [""] + rest;
        assert s == [sep] + s[1..];
      } else {
        var first := [s[0]] + rest[0];
        assert Split(s, sep) == [first] + rest[1..];
        if |rest| == 1 {
          assert s == first;
        } else {
          assert Join(rest, sep) == rest[0] + [sep] + Join(rest[1..], sep);
          assert s == [s[0]] + s[1..];
        }
      }
    }
  }

  /** A string without the separator splits into itself alone. */
  lemma {:induction false} SplitWithoutSeparator(s: string, sep: char)
    requires sep !in s
    ensures Split(s, sep) == [s]
  {
    if |s| > 0 {
      assert sep !in s[1..];
      SplitWithoutSeparator(s[1..], sep);
      assert s == [s[0]] + s[1..];
    }
  }

  /** Splitting `a + sep + b` peels off `a` when `a` has no separator. */
  lemma {:induction false} SplitAtSeparator(a: string, b: string, sep: char)
    requires sep !in a
    ensures Split(a + [sep] + b, sep) == [a] + Split(b, sep)
  {
    if |a| == 0 {
      assert [sep] + b == a + [sep] + b;
      assert ([sep] + b)[1..] == b;
    } else {
      var s := a + [sep] + b;
      assert s[1..] == a[1..] + [sep] + b;
      assert sep !in a[1..];
      SplitAtSeparator(a[1..], b, sep);
      assert a == [a[0]] + a[1..];
    }
  }

  /** Splitting a join gives back the list, provided it is non-empty and no
      element contains the separator. */
  lemma {:induction false} SplitJoin(lines: seq<string>, sep: char)
    requires |lines| > 0
    requires forall i :: 0 <= i < |lines| ==> sep !in lines[i]
    ensures Split(Join(lines, sep), sep) == lines
  {
    if |lines| == 1 {
      SplitWithoutSeparator(lines[0], sep);
    } else {
      SplitJoin(lines[1..], sep);
      SplitAtSeparator(lines[0], Join(lines[1..], sep), sep);
      assert lines == [lines[0]] + lines[1..];
    }
  }

  /** `s.includes(sub)`: `sub` occurs in `s` as a contiguous piece. */
  predicate Includes(s: string, sub: string)
  {
    if sub <= s then true
    else if |s| == 0 then false
    else Includes(s[1..], sub)
  }

  /** `sub` occurs in `s` starting at index `i`. */
  predicate OccursAt(s: string, sub: string, i: int) {
    0 <= i <= |s| - |sub| && s[i..i + |sub|] == sub
  }

  /** A slice of the tail of `s` is the same slice of `s`, shifted by one. */
  lemma SliceOfTail(s: string, i: int, j: int)
    requires 1 <= i <= j <= |s|
    ensures s[1..][i - 1..j - 1] == s[i..j]
  {
    assert |s[1..][i - 1..j - 1]| == j - i;
    forall k | 0 <= k < j - i
      ensures s[1..][i - 1..j - 1][k] == s[i..j][k]
    {
    }
  }

  /** `includes` agrees with the positional definition of a substring. */
  lemma {:induction false} IncludesIffOccurs(s: string, sub: string)
    ensures Includes(s, sub) <==> exists i :: OccursAt(s, sub, i)
  {
    if sub <= s {
      assert OccursAt(s, sub, 0);
    } else if |s| > 0 {
      IncludesIffOccurs(s[1..], sub);
      if exists i :: OccursAt(s, sub, i) {
        var i :| OccursAt(s, sub, i);
        assert i > 0;
        SliceOfTail(s, i, i + |sub|);
        assert OccursAt(s[1..], sub, i - 1);
      }
      if Includes(s[1..], sub) {
        var i :| OccursAt(s[1..], sub, i);
        SliceOfTail(s, i + 1, i + 1 + |sub|);
        assert OccursAt(s, sub, i + 1);
      }
    } else {
      assert forall i :: !OccursAt(s, sub, i);
    }
  }

  /** Any string that includes `long` includes every prefix of it. */
  lemma {:induction false} IncludesPrefix(s: string, long: string, short: string)
    requires short <= long
    requires Includes(s, long)
    ensures Includes(s, short)
  {
    if !(long <= s) {
      IncludesPrefix(s[1..], long, short);
    }
  }
}

=== FILE: lex.dfy ===
/** Text ordering for `ORDER BY` on text columns, taken as code-point
    lexicographic order (the "C" collation), and the ascending listing of a
    finite set of strings. */
module Lex {

  /** `a` sorts strictly before `b`: at the first difference `a` has the smaller
      code point, or `a` is a proper prefix of `b`. */
  predicate Below(a: string, b: string) {
    if |a| == 0 then |b| > 0
    else if |b| == 0 then false
    else if a[0] != b[0] then a[0] < b[0]
    else Below(a[1..], b[1..])
  }

  lemma {:induction false} BelowIrreflexive(a: string)
    ensures !Below(a, a)
  {
    if |a| > 0 {
      BelowIrreflexive(a[1..]);
    }
  }

  lemma {:induction false} BelowTransitive(a: string, b: string, c: string)
    requires Below(a, b) && Below(b, c)
    ensures Below(a, c)
  {
    if |a| > 0 && |b| > 0 && |c| > 0 && a[0] == b[0] && b[0] == c[0] {
      BelowTransitive(a[1..], b[1..], c[1..]);
    }
  }

  lemma {:induction false} BelowTotal(a: string, b: string)
    ensures a == b || Below(a, b) || Below(b, a)
  {
    if |a| > 0 && |b| > 0 && a[0] == b[0] {
      BelowTotal(a[1..], b[1..]);
      if a[1..] == b[1..] {
        assert a == [a[0]] + a[1..] && b == [b[0]] + b[1..];
      }
    }
  }

  lemma BelowAsymmetric(a: string, b: string)
    requires Below(a, b)
    ensures !Below(b, a)
  {
    if Below(b, a) {
      BelowTransitive(a, b, a);
      BelowIrreflexive(a);
    }
  }

  /** Each element sorts strictly before every later one (so none repeats). */
  predicate Ascending(xs: seq<string>) {
    forall i, j :: 0 <= i < j < |xs| ==> Below(xs[i], xs[j])
  }

  /** `m` is the smallest element of `s`. */
  predicate IsLeast(s: set<string>, m: string) {
    m in s && forall x :: x in s && x != m ==> Below(m, x)
  }

  lemma {:induction false} LeastExists(s: set<string>)
    requires |s| > 0
    ensures exists m :: IsLeast(s, m)
    decreases |s|
  {
    if forall y :: y !in s {
      assert false;
    }
    var x :| x in s;
    var rest := s - {x};
    if |rest| == 0 {
      assert forall y :: y in s ==> y == x by {
        forall y | y in s ensures y == x {
          if y != x {
            assert false;
          }
        }
      }
      assert IsLeast(s, x);
    } else {
      LeastExists(rest);
      var m :| IsLeast(rest, m);
      BelowTotal(x, m);
      if Below(x, m) {
        forall y | y in s && y != x
          ensures Below(x, y)
        {
          if y != m {
            BelowTransitive(x, m, y);
          }
        }
        assert IsLeast(s, x);
      } else {
        assert IsLeast(s, m);
      }
    }
  }

  function Least(s: set<string>): (m: string)
    requires |s| > 0
    ensures IsLeast(s, m)
  {
    LeastExists(s);
    UniqueLeast(s);
    var m :| IsLeast(s, m);
    m
  }

  lemma UniqueLeast(s: set<string>)
    ensures forall m, n :: IsLeast(s, m) && IsLeast(s, n) ==> m == n
  {
    forall m, n | IsLeast(s, m) && IsLeast(s, n)
      ensures m == n
    {
      if m != n {
        BelowAsymmetric(m, n);
      }
    }
  }

  /** The elements of a finite set of strings in ascending order, each once. */
  function SortedList(s: set<string>): (xs: seq<string>)
    ensures |xs| == |s|
    ensures Ascending(xs)
    ensures forall x :: x in xs <==> x in s
    decreases |s|
  {
    if |s| == 0 then
      assert forall x :: x !in s by {
        forall x | x in s ensures false {
          assert false;
        }
      }
      []
    else
      var m := Least(s);
      assert |s - {m}| == |s| - 1;
      var rest := SortedList(s - {m});
      var xs := [m] + rest;
      assert forall x :: x in xs <==> x in s by {
        forall x ensures x in xs <==> x in s {
          assert x in xs <==> x == m || x in rest;
          assert x in rest <==> x in s - {m};
        }
      }
      xs
  }
}

=== FILE: post_table.dfy ===
/** The `posts` table as the admin controller sees it: a finite map from id to
    row, plus the serial counter the database draws new ids from, and the
    `ORDER BY created_at DESC` listing. */
module PostTable {

  /** A stored post; `createdAt` is a timestamp in milliseconds. */
  datatype Post = Post(title: string, content: string, createdAt: int)

  /** A post together with its id, as a `SELECT *` row. */
  datatype PostRow = PostRow(id: int, title: string, content: string, createdAt: int)

  /** The table and its id sequence: `nextId` is the id the next insert receives. */
  datatype Table = Table(posts: map<int, Post>, nextId: int)

  /** Every stored id was drawn from the sequence before its current value. */
  predicate Valid(t: Table) {
    forall id :: id in t.posts ==> id < t.nextId
  }

  function RowOf(posts: map<int, Post>, id: int): PostRow
    requires id in posts
  {
    PostRow(id, posts[id].title, posts[id].content, posts[id].createdAt)
  }

  /** `row` is the table's entry for its id. */
  predicate Stored(posts: map<int, Post>, row: PostRow) {
    row.id in posts && RowOf(posts, row.id) == row
  }

  /** The strict order of the newest-first listing: later `createdAt` first.
      SQL leaves rows with equal timestamps in an unspecified order; the model
      puts the larger (more recently issued) id first. */
  predicate NewerThan(a: PostRow, b: PostRow) {
    a.createdAt > b.createdAt || (a.createdAt == b.createdAt && a.id > b.id)
  }

  /** Each row is newer than every row after it. */
  predicate NewestFirstOrder(rows: seq<PostRow>) {
    forall i, j :: 0 <= i < j < |rows| ==> NewerThan(rows[i], rows[j])
  }

  /** `k` is the newest post of the map. */
  predicate IsNewest(posts: map<int, Post>, k: int) {
    k in posts && forall j :: j in posts && j != k ==> NewerThan(RowOf(posts, k), RowOf(posts, j))
  }

  lemma SomeId(posts: map<int, Post>) returns (x: int)
    requires |posts| > 0
    ensures x in posts
  {
    var ids := posts.Keys;
    assert |ids| == |posts|;
    if forall y :: y !in ids {
      assert false;
    }
    x :| x in ids;
  }

  lemma {:induction false} NewestExists(posts: map<int, Post>)
    requires |posts| > 0
    ensures exists k :: IsNewest(posts, k)
    decreases |posts|
  {
    var x := SomeId(posts);
    var rest := posts - {x};
    assert forall j :: j in rest ==> RowOf(rest, j) == RowOf(posts, j);
    if |rest| == 0 {
      assert forall j :: j in posts ==> j == x by {
        forall j | j in posts ensures j == x {
          if j != x {
            assert false;
          }
        }
      }
      assert IsNewest(posts, x);
    } else {
      NewestExists(rest);
      var k :| IsNewest(rest, k);
      if NewerThan(RowOf(posts, x), RowOf(posts, k)) {
        assert IsNewest(posts, x);
      } else {
        assert IsNewest(posts, k);
      }
    }
  }

  function Newest(posts: map<int, Post>): (k: int)
    requires |posts| > 0
    ensures IsNewest(posts, k)
  {
    NewestExists(posts);
    var k :| IsNewest(posts, k);
    k
  }

  /** `SELECT * FROM posts ORDER BY created_at DESC`: every row of the table
      exactly once, newest first. */
  function NewestFirst(posts: map<int, Post>): (rows: seq<PostRow>)
    ensures |rows| == |posts|
    ensures NewestFirstOrder(rows)
    ensures forall row :: row in rows <==> Stored(posts, row)
    decreases |posts|
  {
    if |posts| == 0 then
      assert forall row :: !Stored(posts, row);
      []
    else
      var k := Newest(posts);
      var others := posts - {k};
      var rest := NewestFirst(others);
      assert forall row :: Stored(others, row) <==> Stored(posts, row) && row.id != k;
      [RowOf(posts, k)] + rest
  }

  /** The first `n` rows of the newest-first listing are each at least as new as
      any post left out of them. */
  lemma PrefixIsNewest(posts: map<int, Post>, n: int, id: int, i: int)
    requires 0 <= i < n <= |posts| && id in posts
    requires forall k :: 0 <= k < n ==> NewestFirst(posts)[k].id != id
    ensures NewestFirst(posts)[i].createdAt >= posts[id].createdAt
  {
    var rows := NewestFirst(posts);
    var row := RowOf(posts, id);
    assert Stored(posts, row);
    var k :| 0 <= k < |rows| && rows[k] == row;
    assert rows[k].id == id;
    assert i < k;
    assert NewerThan(rows[i], rows[k]);
  }
}

=== FILE: story_api.dfy ===
/** The story-scene JSON API (routes/story-api.js) over the `story_scenes`
    table, modelled as a map from `scene_id` to the rest of the row. Every
    handler sits behind `requireAuth`. */
module StoryApi {
  import opened Wrappers
  import opened Auth
  import Lex

  /** A `story_scenes` row without its key. `script` and `actions` hold the
      serialised text written by the update (NULL when the request omitted the
      field); `location` is NULL when omitted. */
  datatype Scene = Scene(filePath: string, location: Option<string>, script: Option<string>,
                         actions: Option<string>, updatedAt: int)

  /** The table: scene_id is the unique key. */
  type Scenes = map<string, Scene>

  /** `SELECT scene_id, location`. */
  datatype SceneRef = SceneRef(sceneId: string, location: Option<string>)

  /** `SELECT *`. */
  datatype SceneRow = SceneRow(sceneId: string, filePath: string, location: Option<string>,
                               script: Option<string>, actions: Option<string>, updatedAt: int)

  /** The JSON body of `PUT /scene/:sceneId`; a missing field is `None`. */
  datatype UpdateBody = UpdateBody(script: Option<seq<string>>, actions: Option<seq<string>>,
                                   location: Option<string>)

  /** What a successful response carries besides `success: true`. */
  datatype Payload =
    | Files(files: seq<string>)
    | SceneList(scenes: seq<SceneRef>)
    | Details(details: SceneRow)
    | Saved(message: string)

  /** The `{ success, ... }` envelope. */
  datatype Envelope = Success(payload: Payload) | Failure(error: string)

  /** A JSON response with its status, or the redirect of the auth gate. */
  datatype Reply = Json(status: int, body: Envelope) | Redirect(url: string)

  /** A handler's reply and the table after it ran. */
  datatype Outcome = Outcome(reply: Reply, scenes: Scenes)

  /** The outside world of one request: the serialiser standing for
      `JSON.stringify`, the database clock for `NOW()`, and the error message of
      a query that throws (`None` when the database answers). */
  datatype Env = Env(stringify: seq<string> -> string, now: int, fault: Option<string>)

  const NotFound := "Scene not found"
  const UpdatedMessage := "Scene updated successfully"

  /** A query threw: status 500 with the error's message; nothing is written. */
  function ServerError(scenes: Scenes, message: string): Outcome {
    Outcome(Json(500, Failure(message)), scenes)
  }

  function RowOf(scenes: Scenes, id: string): SceneRow
    requires id in scenes
  {
    var s := scenes[id];
    SceneRow(id, s.filePath, s.location, s.script, s.actions, s.updatedAt)
  }

  /** Some row of the table has this file path. */
  predicate HasFile(scenes: Scenes, path: string) {
    exists id :: id in scenes && scenes[id].filePath == path
  }

  /** `ref` is the (scene_id, location) projection of a row filed under `path`. */
  predicate ListedUnder(scenes: Scenes, path: string, ref: SceneRef) {
    ref.sceneId in scenes && scenes[ref.sceneId].filePath == path
    && ref.location == scenes[ref.sceneId].location
  }

  predicate IdsAscending(refs: seq<SceneRef>) {
    forall i, j :: 0 <= i < j < |refs| ==> Lex.Below(refs[i].sceneId, refs[j].sceneId)
  }

  /** `GET /files`: `SELECT DISTINCT file_path ... ORDER BY file_path`. */
  function ListFiles(scenes: Scenes, env: Env): (o: Outcome)
    ensures o.scenes == scenes
    ensures env.fault.Some? ==> o.reply == Json(500, Failure(env.fault.value))
    ensures env.fault.None? ==>
      && o.reply.Json? && o.reply.status == 200 && o.reply.body.Success?
      && o.reply.body.payload.Files?
      && Lex.Ascending(o.reply.body.payload.files)
      && forall f :: f in o.reply.body.payload.files <==> HasFile(scenes, f)
  {
    if env.fault.Some? then ServerError(scenes, env.fault.value)
    else
      var paths := set id | id in scenes :: scenes[id].filePath;
      var files := Lex.SortedList(paths);
      Outcome(Json(200, Success(Files(files))), scenes)
  }

  /** The (scene_id, location) projections of the rows `ids` names, in order. */
  function RefsOf(scenes: Scenes, path: string, ids: seq<string>): (refs: seq<SceneRef>)
    requires forall x :: x in ids <==> x in scenes && scenes[x].filePath == path
    ensures |refs| == |ids|
    ensures forall i :: 0 <= i < |refs| ==> refs[i].sceneId == ids[i]
    ensures forall r :: r in refs <==> ListedUnder(scenes, path, r)
  {
    var refs := seq(|ids|, i requires 0 <= i < |ids| => SceneRef(ids[i], scenes[ids[i]].location));
    assert forall r :: r in refs <==> ListedUnder(scenes, path, r) by {
      forall r ensures r in refs <==> ListedUnder(scenes, path, r) {
        if ListedUnder(scenes, path, r) {
          var i :| 0 <= i < |ids| && ids[i] == r.sceneId;
          assert refs[i] == r;
        }
        if r in refs {
          var i :| 0 <= i < |refs| && refs[i] == r;
          assert ids[i] in ids;
        }
      }
    }
    refs
  }

  /** `GET /scenes/<rest>`: the rows whose file_path is the whole remaining path
      (slashes included), projected to (scene_id, location), by scene_id. */
  function ListScenes(scenes: Scenes, path: string, env: Env): (o: Outcome)
    ensures o.scenes == scenes
    ensures env.fault.Some? ==> o.reply == Json(500, Failure(env.fault.value))
    ensures env.fault.None? ==>
      && o.reply.Json? && o.reply.status == 200 && o.reply.body.Success?
      && o.reply.body.payload.SceneList?
      && IdsAscending(o.reply.body.payload.scenes)
      && forall r :: r in o.reply.body.payload.scenes <==> ListedUnder(scenes, path, r)
  {
    if env.fault.Some? then ServerError(scenes, env.fault.value)
    else
      var ids := Lex.SortedList(set id | id in scenes && scenes[id].filePath == path);
      var refs := RefsOf(scenes, path, ids);
      Outcome(Json(200, Success(SceneList(refs))), scenes)
  }

  /** `GET /scene/:sceneId`: 404 exactly when no row has the id, else the row. */
  function GetScene(scenes: Scenes, sceneId: string, env: Env): (o: Outcome)
    ensures o.scenes == scenes
    ensures env.fault.Some? ==> o.reply == Json(500, Failure(env.fault.value))
    ensures env.fault.None? && sceneId !in scenes ==> o.reply == Json(404, Failure(NotFound))
    ensures env.fault.None? && sceneId in scenes ==>
      && o.reply.Json? && o.reply.status == 200 && o.reply.body.Success?
      && o.reply.body.payload.Details?
      && o.reply.body.payload.details.sceneId == sceneId
      && o.reply.body.payload.details.filePath == scenes[sceneId].filePath
      && o.reply.body.payload.details.location == scenes[sceneId].location
      && o.reply.body.payload.details.script == scenes[sceneId].script
      && o.reply.body.payload.details.actions == scenes[sceneId].actions
      && o.reply.body.payload.details.updatedAt == scenes[sceneId].updatedAt
  {
    if env.fault.Some? then ServerError(scenes, env.fault.value)
    else if sceneId !in scenes then Outcome(Json(404, Failure(NotFound)), scenes)
    else Outcome(Json(200, Success(Details(RowOf(scenes, sceneId)))), scenes)
  }

  /** `JSON.stringify(v)` as a query parameter: `undefined` becomes SQL NULL. */
  function Serialise(stringify: seq<string> -> string, v: Option<seq<string>>): (r: Option<string>)
    ensures r.None? <==> v.None?
    ensures v.Some? ==> r == Some(stringify(v.value))
  {
    match v
    case None => None
    case Some(lines) => Some(stringify(lines))
  }

  /** `PUT /scene/:sceneId`: on a present id, script and actions become the
      serialisation of exactly what was received, location is stored verbatim,
      updated_at is refreshed, and nothing else in the table changes; on an
      absent id, 404 and no change. */
  function UpdateScene(scenes: Scenes, sceneId: string, body: UpdateBody, env: Env): (o: Outcome)
    ensures env.fault.Some? ==> o == Outcome(Json(500, Failure(env.fault.value)), scenes)
    ensures env.fault.None? && sceneId !in scenes ==> o == Outcome(Json(404, Failure(NotFound)), scenes)
    ensures env.fault.None? && sceneId in scenes ==>
      && o.reply == Json(200, Success(Saved(UpdatedMessage)))
      && o.scenes.Keys == scenes.Keys
      && (forall id :: id in scenes && id != sceneId ==> o.scenes[id] == scenes[id])
      && o.scenes[sceneId].filePath == scenes[sceneId].filePath
      && o.scenes[sceneId].location == body.location
      && o.scenes[sceneId].script == Serialise(env.stringify, body.script)
      && o.scenes[sceneId].actions == Serialise(env.stringify, body.actions)
      && o.scenes[sceneId].updatedAt == env.now
  {
    if env.fault.Some? then ServerError(scenes, env.fault.value)
    else if sceneId !in scenes then Outcome(Json(404, Failure(NotFound)), scenes)
    else
      var prev := scenes[sceneId];
      var updated := Scene(prev.filePath, body.location, Serialise(env.stringify, body.script),
                           Serialise(env.stringify, body.actions), env.now);
      Outcome(Json(200, Success(Saved(UpdatedMessage))), scenes[sceneId := updated])
  }

  /** The four routes of the router. */
  datatype Request =
    | GetFiles
    | GetScenes(path: string)
    | GetSceneById(sceneId: string)
    | PutScene(sceneId: string, body: UpdateBody)

  /** A request as the router runs it: `requireAuth`, then the handler. */
  function Handle(session: Session, req: Request, scenes: Scenes, env: Env): (o: Outcome)
    ensures !session.isAuthenticated ==> o == Outcome(Reply.Redirect(LoginUrl), scenes)
    ensures session.isAuthenticated ==> o.reply.Json?
    ensures session.isAuthenticated && req.PutScene? ==> o == UpdateScene(scenes, req.sceneId, req.body, env)
    ensures session.isAuthenticated && req.GetSceneById? ==> o == GetScene(scenes, req.sceneId, env)
    ensures session.isAuthenticated && req.GetFiles? ==> o == ListFiles(scenes, env)
    ensures session.isAuthenticated && req.GetScenes? ==> o == ListScenes(scenes, req.path, env)
  {
    match RequireAuth(session)
    case Redirect(url) => Outcome(Reply.Redirect(url), scenes)
    case Next =>
      match req
      case GetFiles => ListFiles(scenes, env)
      case GetScenes(path) => ListScenes(scenes, path, env)
      case GetSceneById(id) => GetScene(scenes, id, env)
      case PutScene(id, body) => UpdateScene(scenes, id, body, env)
  }

  /** Without an authenticated session no handler runs: every route redirects
      to the login page and the table is untouched. */
  lemma UnauthenticatedRedirected(session: Session, req: Request, scenes: Scenes, env: Env)
    requires !session.isAuthenticated
    ensures Handle(session, req, scenes, env) == Outcome(Reply.Redirect(LoginUrl), scenes)
  {
  }

  /** The three GET routes never change the table. */
  lemma ReadsDoNotWrite(session: Session, req: Request, scenes: Scenes, env: Env)
    requires !req.PutScene?
    ensures Handle(session, req, scenes, env).scenes == scenes
  {
  }

  /** Every JSON response is `success: false` exactly when its status is not 200,
      a failure is 404 "Scene not found" or a 500 carrying the thrown message,
      and a thrown error never changes the table. */
  lemma EnvelopeMatchesStatus(session: Session, req: Request, scenes: Scenes, env: Env)
    ensures var o := Handle(session, req, scenes, env);
      o.reply.Json? ==>
        && (o.reply.body.Success? <==> o.reply.status == 200)
        && (o.reply.body.Failure? ==>
              || o.reply == Json(404, Failure(NotFound))
              || (env.fault.Some? && o.reply == Json(500, Failure(env.fault.value))))
    ensures env.fault.Some? ==> Handle(session, req, scenes, env).scenes == scenes
  {
  }

  /** The server stores what it receives: two update bodies that differ in
      their lines store different script text whenever the serialiser tells the
      line lists apart; no trimming or blank-dropping happens on the server. */
  lemma ServerDoesNotNormalise(scenes: Scenes, sceneId: string, a: seq<string>, b: seq<string>,
                               location: Option<string>, env: Env)
    requires env.fault.None? && sceneId in scenes
    requires env.stringify(a) != env.stringify(b)
    ensures UpdateScene(scenes, sceneId, UpdateBody(Some(a), None, location), env).scenes[sceneId].script
         != UpdateScene(scenes, sceneId, UpdateBody(Some(b), None, location), env).scenes[sceneId].script
  {
  }

  /** An update followed by a read of the same scene returns what the update
      stored: the location as sent, the serialised lines, and the new timestamp. */
  lemma UpdateThenGet(scenes: Scenes, sceneId: string, body: UpdateBody, env: Env)
    requires env.fault.None? && sceneId in scenes
    ensures var after := UpdateScene(scenes, sceneId, body, env).scenes;
            var d := GetScene(after, sceneId, env).reply.body.payload.details;
            && d.filePath == scenes[sceneId].filePath
            && d.location == body.location
            && d.script == Serialise(env.stringify, body.script)
            && d.actions == Serialise(env.stringify, body.actions)
            && d.updatedAt == env.now
  {
  }
}

=== FILE: story_editor.dfy ===
/** The pure parts of the browser story editor (public/js/story-editor.js):
    filling the form from a fetched scene, and turning the form into the PUT
    request on save. DOM updates, `fetch` and the status-message timer are not
    modelled. */
module StoryEditor {
  import opened Wrappers
  import opened JsString
  import StoryApi

  /** The editor form: the location input and the two line-per-row text areas. */
  datatype Form = Form(location: string, scriptText: string, actionsText: string)

  /** The `details` of a fetched scene as the browser receives them; a NULL or
      missing column is `None`. */
  datatype Details = Details(location: Option<string>, script: Option<seq<string>>,
                             actions: Option<seq<string>>)

  /** The body of the PUT the save button sends, with the scene it targets. */
  datatype SaveRequest = SaveRequest(sceneId: string, script: seq<string>, actions: seq<string>,
                                     location: string)

  /** `a` is an order-preserving subsequence of `b`. */
  predicate IsSubsequence(a: seq<string>, b: seq<string>) {
    if |a| == 0 then true
    else if |b| == 0 then false
    else if a[0] == b[0] then IsSubsequence(a[1..], b[1..])
    else IsSubsequence(a, b[1..])
  }

  /** A line as the editor stores it: non-empty, trimmed, a single line. */
  predicate CanonicalLine(l: string) {
    l != "" && IsTrimmed(l) && '\n' !in l
  }

  predicate AllCanonical(lines: seq<string>) {
    forall i :: 0 <= i < |lines| ==> CanonicalLine(lines[i])
  }

  /** `.filter(l => l !== '')`: the non-empty lines, in order. */
  function DropBlank(lines: seq<string>): (r: seq<string>)
    ensures forall i :: 0 <= i < |r| ==> r[i] != "" && r[i] in lines
    ensures IsSubsequence(r, lines)
    ensures forall l :: l in lines && l != "" ==> l in r
    ensures forall l :: l != "" ==> multiset(r)[l] == multiset(lines)[l]
  {
    if |lines| == 0 then []
    else
      var rest := DropBlank(lines[1..]);
      var r := if lines[0] == "" then rest else [lines[0]] + rest;
      DropBlankStep(lines, rest, r);
      r
  }

  /** One step of `DropBlank`: keeping or dropping the head line preserves the
      counts of the non-empty lines and the order of the kept ones. */
  lemma {:induction false} DropBlankStep(lines: seq<string>, rest: seq<string>, r: seq<string>)
    requires |lines| > 0
    requires forall i :: 0 <= i < |rest| ==> rest[i] != "" && rest[i] in lines[1..]
    requires IsSubsequence(rest, lines[1..])
    requires forall l :: l in lines[1..] && l != "" ==> l in rest
    requires forall l :: l != "" ==> multiset(rest)[l] == multiset(lines[1..])[l]
    requires r == if lines[0] == "" then rest else [lines[0]] + rest
    ensures forall i :: 0 <= i < |r| ==> r[i] != "" && r[i] in lines
    ensures IsSubsequence(r, lines)
    ensures forall l :: l in lines && l != "" ==> l in r
    ensures forall l :: l != "" ==> multiset(r)[l] == multiset(lines)[l]
  {
    assert lines == [lines[0]] + lines[1..];
    assert multiset(lines) == multiset{lines[0]} + multiset(lines[1..]);
    assert forall l :: l in lines ==> l == lines[0] || l in lines[1..];
    if lines[0] == "" {
      assert |rest| > 0 ==> rest[0] != lines[0];
    } else {
      assert r[0] == lines[0] && r[1..] == rest;
      assert IsSubsequence(r, lines);
      assert r == [lines[0]] + rest;
      assert multiset(r) == multiset{lines[0]} + multiset(rest);
    }
  }

  /** `.map(l => l.trim())`. */
  function TrimAll(parts: seq<string>): (r: seq<string>)
    ensures |r| == |parts|
    ensures forall i :: 0 <= i < |r| ==> r[i] == Trim(parts[i])
  {
    seq(|parts|, i requires 0 <= i < |parts| => Trim(parts[i]))
  }

  /** `.split('\n').map(l => l.trim())`: every line of the text, trimmed. */
  function TrimmedSegments(text: string): (r: seq<string>)
    ensures forall i :: 0 <= i < |r| ==> IsTrimmed(r[i]) && '\n' !in r[i]
  {
    var parts := Split(text, '\n');
    assert forall i :: 0 <= i < |parts| ==> '\n' !in Trim(parts[i]) by {
      forall i | 0 <= i < |parts| ensures '\n' !in Trim(parts[i]) {
        TrimKeepsOut(parts[i], '\n');
      }
    }
    TrimAll(parts)
  }

  /** The save path's line normalisation: split on `'\n'`, trim, drop blanks.
      The result holds only canonical lines, keeps the order of the text, and
      keeps every occurrence of every non-blank trimmed line. */
  function Normalise(text: string): (r: seq<string>)
    ensures AllCanonical(r)
    ensures IsSubsequence(r, TrimmedSegments(text))
    ensures forall l :: l in TrimmedSegments(text) && l != "" ==> l in r
    ensures forall l :: l != "" ==> multiset(r)[l] == multiset(TrimmedSegments(text))[l]
  {
    DropBlank(TrimmedSegments(text))
  }

  /** Filtering a list with no blank lines changes nothing. */
  lemma {:induction false} DropBlankNoBlanks(lines: seq<string>)
    requires forall i :: 0 <= i < |lines| ==> lines[i] != ""
    ensures DropBlank(lines) == lines
  {
    if |lines| > 0 {
      DropBlankNoBlanks(lines[1..]);
      assert lines == [lines[0]] + lines[1..];
    }
  }

  /** Load then save: a list of canonical lines survives `join('\n')` followed by
      normalisation unchanged. */
  lemma JoinThenNormalise(lines: seq<string>)
    requires AllCanonical(lines)
    ensures Normalise(Join(lines, '\n')) == lines
  {
    if |lines| == 0 {
      assert Split("", '\n') == [""];
      assert TrimmedSegments("") == [""];
    } else {
      SplitJoin(lines, '\n');
      var segs := TrimmedSegments(Join(lines, '\n'));
      assert segs == lines by {
        forall i | 0 <= i < |lines| ensures segs[i] == lines[i] {
          TrimFixpoint(lines[i]);
        }
      }
      DropBlankNoBlanks(lines);
    }
  }

  /** Normalising the `'\n'`-join of a normalised list gives the same list. */
  lemma NormaliseIdempotent(text: string)
    ensures Normalise(Join(Normalise(text), '\n')) == Normalise(text)
  {
    JoinThenNormalise(Normalise(text));
  }

  /** Filling the form from a fetched scene: `details.location || ''` and each
      line list joined with `'\n'` (a missing list as `[]`). */
  function Load(details: Details): (f: Form)
    ensures details.location.None? ==> f.location == ""
    ensures details.location.Some? ==> f.location == details.location.value
    ensures details.script.None? ==> f.scriptText == ""
    ensures details.script.Some? ==> f.scriptText == Join(details.script.value, '\n')
    ensures details.actions.None? ==> f.actionsText == ""
    ensures details.actions.Some? ==> f.actionsText == Join(details.actions.value, '\n')
  {
    Form(details.location.GetOr(""), Join(details.script.GetOr([]), '\n'),
         Join(details.actions.GetOr([]), '\n'))
  }

  /** The save handler: nothing is sent while no scene is selected (a falsy
      current scene id); otherwise script and actions are normalised the same way
      and the location is trimmed. */
  function Save(currentSceneId: Option<string>, f: Form): (r: Option<SaveRequest>)
    ensures r.None? <==> !Truthy(currentSceneId)
    ensures r.Some? ==>
      && r.value.sceneId == currentSceneId.value
      && AllCanonical(r.value.script) && AllCanonical(r.value.actions)
      && IsTrimmed(r.value.location)
    ensures r.Some? ==>
      && r.value.script == Normalise(f.scriptText)
      && r.value.actions == Normalise(f.actionsText)
      && r.value.location == Trim(f.location)
  {
    if !Truthy(currentSceneId) then None
    else Some(SaveRequest(currentSceneId.value, Normalise(f.scriptText), Normalise(f.actionsText),
                          Trim(f.location)))
  }

  /** Script and actions go through the same transformation: swapping the two
      text areas swaps the two lists of the request. */
  lemma SaveTreatsScriptAndActionsAlike(currentSceneId: Option<string>, f: Form)
    requires Truthy(currentSceneId)
    ensures var a := Save(currentSceneId, f).value;
            var b := Save(currentSceneId, Form(f.location, f.actionsText, f.scriptText)).value;
            a.script == b.actions && a.actions == b.script && a.location == b.location
  {
  }

  /** Opening a scene whose stored lines are canonical and whose location is
      trimmed, then saving without edits, sends back exactly what was stored. */
  lemma LoadThenSaveUnchanged(sceneId: string, details: Details)
    requires sceneId != ""
    requires AllCanonical(details.script.GetOr([])) && AllCanonical(details.actions.GetOr([]))
    requires IsTrimmed(details.location.GetOr(""))
    ensures Save(Some(sceneId), Load(details))
         == Some(SaveRequest(sceneId, details.script.GetOr([]), details.actions.GetOr([]),
                             details.location.GetOr("")))
  {
    JoinThenNormalise(details.script.GetOr([]));
    JoinThenNormalise(details.actions.GetOr([]));
    TrimFixpoint(details.location.GetOr(""));
  }

  /** The JSON body the server receives for a save request. */
  function ToBody(r: SaveRequest): StoryApi.UpdateBody {
    StoryApi.UpdateBody(Some(r.script), Some(r.actions), Some(r.location))
  }

  /** End to end: a save from the editor stores the serialisation of the
      normalised text areas and the trimmed location. */
  lemma SaveStoresNormalisedLines(scenes: StoryApi.Scenes, sceneId: string, f: Form, env: StoryApi.Env)
    requires env.fault.None? && sceneId in scenes && sceneId != ""
    ensures var o := StoryApi.UpdateScene(scenes, sceneId, ToBody(Save(Some(sceneId), f).value), env);
            && o.scenes[sceneId].script == Some(env.stringify(Normalise(f.scriptText)))
            && o.scenes[sceneId].actions == Some(env.stringify(Normalise(f.actionsText)))
            && o.scenes[sceneId].location == Some(Trim(f.location))
  {
  }
}

=== FILE: wrappers.dfy ===
/** Optional values: a JavaScript `undefined`/`null` field or SQL NULL is `None`. */
module Wrappers {

  datatype Option<+T> = None | Some(value: T) {

    /** The value, or `default` when absent (the `x || default` idiom for non-falsy values). */
    function GetOr(default: T): T {
      match this
      case Some(v) => v
      case None => default
    }
  }
}
